=== FILE: README.md ===
# Leveled logger: level policy and emit procedure

This project models the Go package `log` of go-log, a small leveled-logging
facade, in Dafny. The package has one process-wide level policy (`gConfig`):
a default threshold, a map from logger name to an overriding threshold, and
the standard library's output flags. Named loggers made by `NewLogger` expose
six methods, `LogV` … `LogF`, which all delegate to one emit procedure. That
procedure filters against the live policy, prefixes the message with
`[name] ` for named loggers, writes `"<tag> <message>\n"`, and panics at
FATAL or at a level it has no case for.

The model is functional:

- `LogConfig.Config` is an immutable record with a `map<string, int>`. The
  setters `SetLevel`, `SetDefaulLevel` and `SetFlags` are pure functions
  from the old policy to the new one. `IsLoggable` is a pure predicate.
- `LevelLogger.Emit` is a pure function of the policy, the logger, the level
  and the rendered message. It returns an `Outcome`: `Silent`, `Wrote(line)`,
  `WroteThenPanic(line, payload)` or `PanicOnly(payload)`.
- The printf-style rendering of the user's template is the `render` parameter
  of the six `LogX` functions. It is left uninterpreted. Everything after it
  is exact string concatenation.
- Levels are plain `int`s, as in the source. A level outside 1..6 can still
  reach the emit procedure, and its `default:` branch is modelled.
- `Session.Run` runs a sequence of calls against the policy. It stops at the
  first panic, because a Go panic unwinds the caller.
- `Decimal.FormatInt` is the `%d` used in the "unsupported log level" panic
  message.

Two quirks of the source are modelled as written:

- `NewLogger` ignores its `file` argument; every logger writes to standard
  error.
- A logger takes a copy of the policy's flags when it is made. Filtering, by
  contrast, reads the live policy on every call.

Levels are untyped int constants (log.go:9-16), so any int can reach the
emit procedure; the model keeps them as `int`.

## Model

| member | source | states |
|---|---|---|
| Levels.Tag | log.go:81-103 | a level has a tag letter exactly when it is one of the six cases 1..6, and the letter is V, D, I, W, E or F in level order |
| Levels.LevelOfTag | log.go:82-98 | reading a tag letter yields a level exactly for the six tag letters, and always a supported one |
| Levels.TagRoundTrip | log.go:82-98 | every supported level is recovered from its tag letter |
| Levels.TagLetterRoundTrip | log.go:82-98 | every tag letter is the tag of the level it reads back as |
| Levels.TagInjective | log.go:82-98 | two supported levels with the same tag are the same level |
| Decimal.Digits | log.go:102 | `%d` of a natural number is a non-empty string of decimal digits with no leading zero, and is exactly "0" for zero |
| Decimal.DigitsValue | log.go:102 | the digit string of n, read most significant digit first, denotes n |
| Decimal.FormatInt | log.go:102 | `%d` of an int starts with a minus sign exactly when it is negative, is digits after the sign, has no leading zero, and is exactly "0" for zero |
| Decimal.ParseFormatRoundTrip | log.go:102 | every printed int is read back as itself |
| Decimal.FormatIntInjective | log.go:102 | distinct ints print differently |
| LogConfig.IsLoggable | log.go:30-36 | the name's override decides when there is one, the default otherwise; either way a level is written exactly when it is at least the effective threshold |
| LogConfig.SetLevel | log.go:38-40 | the override of the given name is set to the level; every other override, the default and the flags are kept |
| LogConfig.SetDefaulLevel | log.go:42-44 | only the default changes; the overrides and flags are kept |
| LogConfig.SetFlags | log.go:46-48 | only the flags change; the thresholds are kept |
| LogConfig.InitialFlagsValue | log.go:18-22 | the initial flags are Lshortfile, LstdFlags and Lmicroseconds, which is 23 |
| LogConfig.InitialPolicy | log.go:18-22 | at start-up every name logs exactly the levels from DEBUG up, so VERBOSE is suppressed |
| LogConfig.DefaultApplies | log.go:30-32 | a name with no override logs a level exactly when it is at least the default |
| LogConfig.OverrideTakesPrecedence | log.go:33-35 | a name with an override logs a level exactly when it is at least the override, and changing the default makes no difference |
| LogConfig.Monotone | log.go:30-36 | if a level is logged for a name, every higher level is logged too |
| LogConfig.LoggableIffAtThreshold | log.go:30-36 | filtering is a comparison against one effective threshold: the override if there is one, else the default |
| LogConfig.ThresholdUnique | log.go:30-36 | no other threshold describes the logged levels of a name, so the effective threshold is unique |
| LogConfig.SetLevelEffect | log.go:38-40 | after SetLevel the named logger follows the new threshold and every other name filters as before |
| LogConfig.SetLevelIdempotent | log.go:38-40 | setting the same override twice equals setting it once |
| LogConfig.SetLevelLastWins | log.go:38-40 | of two overrides for one name, the later one wins |
| LogConfig.SetLevelCommutes | log.go:38-40 | overrides for different names can be set in either order |
| LogConfig.SetDefaultEffect | log.go:42-44 | changing the default does not affect filtering for any overridden name, and moves every other name to the new default |
| LogConfig.OverrideSurvivesDefault | log.go:30-44 | once a name has an override, a later default change does not reach it |
| LogConfig.SetFlagsKeepsFiltering | log.go:46-48 | the flags never influence filtering |
| LevelLogger.NewLogger | log.go:59-67 | the logger keeps its name, always writes to standard error whatever file it is given, and holds the flags of the policy at creation |
| LevelLogger.NewLoggerIgnoresFile | log.go:59-66 | the file argument makes no difference to the logger made |
| LevelLogger.FlagsSnapshot | log.go:65 | a logger keeps the flags it captured, while a logger made after SetFlags captures the new flags |
| LevelLogger.Prefixed | log.go:78-80 | a named logger's message is preceded by exactly `[name] ` and the unnamed logger's is left as is: the result ends with the message and is longer by the length of that prefix |
| LevelLogger.StripPrefixRoundTrip | log.go:78-80 | given the name, the message is recovered from its prefixed form |
| LevelLogger.Line | log.go:83-98 | a written line is the tag, a space, the message and a newline, three characters longer than the message |
| LevelLogger.LineRoundTrip | log.go:83-98 | the tag and message are recovered from a written line |
| LevelLogger.UnsupportedMessage | log.go:101-102 | the panic payload for a level with no case is "unsupported log level " followed by the level's `%d` text: a minus sign for negatives, then digits with no leading zero, and exactly "0" for zero |
| LevelLogger.UnsupportedMessageNamesLevel | log.go:102 | the level is read back from the payload text after that prefix |
| LevelLogger.UnsupportedMessageInjective | log.go:102 | different levels give different payloads |
| LevelLogger.Emit | log.go:74-106 | a call is silent exactly when the level is filtered out; it writes one line and returns for a logged level in 1..5; it writes one line and then panics with the prefixed message at a logged FATAL; and it panics with the unsupported-level message, writing nothing, for a logged level outside 1..6 |
| LevelLogger.EmitLineText | log.go:77-98 | the written line is exactly tag + " " + ("[" + name + "] " unless the name is empty) + message + "\n" |
| LevelLogger.EmitLineRoundTrip | log.go:77-98 | a written line reads back as the level's tag and the prefixed message, the tag reads back as the level, and the caller's message is recovered given the name |
| LevelLogger.EmitWritesAtMostOne | log.go:74-106 | a call writes one line when the level is logged and in 1..6, and none otherwise |
| LevelLogger.SuppressedIsSilent | log.go:75 | a filtered-out call neither writes nor panics, even for a level outside 1..6, because the filter runs before the switch |
| LevelLogger.FatalWritesThenPanics | log.go:97-99 | a logged FATAL call panics, and before that writes the line whose message is the panic payload |
| LevelLogger.EmitIgnoresFlags | log.go:74-106 | neither the policy's flags nor the logger's captured flags or stream change the outcome of a call |
| LevelLogger.EmitSeesLaterSetLevel | log.go:75 | an override set after a logger was made governs that logger's calls: a call is silent exactly when its level is below the new override |
| LevelLogger.LogV | log.go:108-110 | LogV never panics; it writes the V line exactly when VERBOSE passes the filter |
| LevelLogger.LogD | log.go:112-114 | LogD never panics; it writes the D line exactly when DEBUG passes the filter |
| LevelLogger.LogI | log.go:116-118 | LogI never panics; it writes the I line exactly when INFO passes the filter |
| LevelLogger.LogW | log.go:120-122 | LogW never panics; it writes the W line exactly when WARNING passes the filter |
| LevelLogger.LogE | log.go:124-126 | LogE never panics; it writes the E line exactly when ERROR passes the filter |
| LevelLogger.LogF | log.go:128-130 | LogF either does nothing or writes the F line and then panics with the prefixed message; it panics exactly when FATAL passes the filter |
| Session.Run | log.go:74-106 | a run writes at most one line per call |
| Session.RunWritesLines | log.go:83-98 | every line a run writes is tag, space, message, newline with one of the six tags |
| Session.RunConcat | log.go:74-106 | when a run ends normally, running more calls after it continues from the policy it left and appends their lines |
| Session.RunStopsAtPanic | log.go:97-102 | once a call panics, no later call takes effect |
| Session.FatalEndsRun | log.go:97-99 | a logged FATAL call writes its line as the last line of the run and ends the run with the prefixed message as payload |
| Session.SetLevelReachesExistingLogger | log.go:38-40 | an override set just before a call on an existing logger decides that call: nothing happens exactly when the level is below the override |
| Scenarios.UnnamedAtStartup | log.go:18-22 | at start-up an unnamed logger drops VERBOSE and writes "D x=5\n" for DEBUG |
| Scenarios.NetOverrideDropsInfo | log.go:38-40 | with a WARNING override on "net", INFO from the "net" logger is silent |
| Scenarios.NetOverrideWritesError | log.go:77-95 | with that override, ERROR from "net" writes "E [net] down\n" to standard error, although the logger was handed another file |
| Scenarios.FatalBoom | log.go:97-99 | FATAL "boom" writes "F boom\n" and then panics with "boom" |
| Scenarios.FatalNamed | log.go:78-99 | on the "db" logger the FATAL payload carries the "[db] " prefix too |
| Scenarios.UnsupportedAboveFatal | log.go:101-102 | level 7 panics with "unsupported log level 7" and writes nothing |
| Scenarios.UnsupportedButSuppressed | log.go:75 | level 0 is below the default threshold, so it is silent although it has no case |
| Scenarios.UnsupportedNegative | log.go:101-102 | a negative level that passes a lowered default panics with its sign printed, "unsupported log level -13" |
| Scenarios.TestLogAfterLowering | log_test.go:15-17 | after the default is lowered to VERBOSE, both VERBOSE and DEBUG calls on an unnamed logger write their lines |
| Scenarios.TestLogRun | log_test.go:9-17 | for any messages, the VERBOSE and DEBUG calls of the test write only the DEBUG line before the default is lowered, and both lines after |

## Left out

- Rendering of the user's template by `fmt.Sprintf` with Go formatting verbs and `interface{}` values: it is the uninterpreted `render` parameter of the LogX functions.
- The standard library's `log.Logger.Output`: timestamps, the `Lshortfile`/`Lmicroseconds` prefixes, the call depth of 3 used for source locations, and adding a newline when one is missing. The sink is modelled as receiving the exact string passed to it. This is also why the flags never affect an `Outcome`.
- `os.File`, `os.Stderr` and real I/O: `File` is a tag, and the fact that a logger's stream is always standard error is recorded on `Logger.out`.
- Go `panic`/`recover` unwinding: a panic is reported as the payload in the `Outcome`, and `Session.Run` stops at it. Recovering from a panic is not modelled.
- Go strings are byte sequences; the model's strings are sequences of Unicode characters, so the lengths stated for `Prefixed` and `Line` count characters, and names or messages that are not valid UTF-8 cannot be represented. Nothing in the code depends on the encoding.
- Concurrency: `gConfig` is an unsynchronised global with no locking. The model is sequential.
- Go's `int` is 64 bits wide. No arithmetic is done on levels or flags, so comparisons of unbounded ints behave the same. Levels outside the 64-bit range are not excluded.
- Scenarios.TestLogRun: covers the VERBOSE and DEBUG calls of log_test.go, not its INFO, WARNING and ERROR calls. Those behave like DEBUG, as `LevelLogger.Emit` states for every level from 1 to 5.

=== FILE: config.dfy ===
/**
  The process-wide level policy: a default threshold, per-name overriding
  thresholds and the output flags. The setters are pure transformers from the
  policy before the call to the policy after it.
 */
module LogConfig {
  import opened Levels

  /** Bits of the standard library's log flags the initial policy turns on. */
  const Ldate: bv8 := 1
  const Ltime: bv8 := 2
  const Lmicroseconds: bv8 := 4
  const Lshortfile: bv8 := 16
  const LstdFlags: bv8 := Ldate | Ltime

  /** Date, time to the microsecond and short source location. */
  const InitialFlags: int := (Lshortfile | LstdFlags | Lmicroseconds) as int

  datatype Config = Config(defaultLevel: int, levelMap: map<string, int>, flags: int)

  /** The policy at start-up: DEBUG and above, no overrides. */
  const Initial: Config := Config(Debug, map[], InitialFlags)

  /** The effective threshold of a name: its override if present, else the default. */
  function Threshold(c: Config, name: string): int {
    if name in c.levelMap then c.levelMap[name] else c.defaultLevel
  }

  /** Whether a message at `level` from the logger called `name` is written:
      the name's override decides when there is one, the default otherwise. */
  function IsLoggable(c: Config, name: string, level: int): (r: bool)
    ensures name in c.levelMap ==> (r <==> level >= c.levelMap[name])
    ensures name !in c.levelMap ==> (r <==> level >= c.defaultLevel)
    ensures r <==> level >= Threshold(c, name)
  {
    if name !in c.levelMap then level >= c.defaultLevel else level >= c.levelMap[name]
  }

  /** Installs (or replaces) the override for one name. */
  function SetLevel(c: Config, name: string, level: int): (c': Config)
    ensures c'.levelMap.Keys == c.levelMap.Keys + {name}
    ensures c'.levelMap[name] == level
    ensures forall n :: n in c.levelMap && n != name ==> c'.levelMap[n] == c.levelMap[n]
    ensures c'.defaultLevel == c.defaultLevel && c'.flags == c.flags
  {
    c.(levelMap := c.levelMap[name := level])
  }

  /** Replaces the default threshold. */
  function SetDefaulLevel(c: Config, level: int): (c': Config)
    ensures c'.defaultLevel == level
    ensures c'.levelMap == c.levelMap && c'.flags == c.flags
  {
    c.(defaultLevel := level)
  }

  /** Replaces the output flags. */
  function SetFlags(c: Config, flags: int): (c': Config)
    ensures c'.flags == flags
    ensures c'.levelMap == c.levelMap && c'.defaultLevel == c.defaultLevel
  {
    c.(flags := flags)
  }

  /** The flags the initial policy carries: 16 | 3 | 4. */
  lemma InitialFlagsValue()
    ensures Initial.flags == 23
  {
  }

  /** At start-up every name logs exactly the levels from DEBUG up, so VERBOSE is
      suppressed. */
  lemma InitialPolicy(name: string, level: int)
    ensures IsLoggable(Initial, name, level) <==> level >= Debug
    ensures !IsLoggable(Initial, name, Verbose)
  {
  }

  /** A name without an override follows the default. */
  lemma DefaultApplies(c: Config, name: string, level: int)
    requires name !in c.levelMap
    ensures IsLoggable(c, name, level) <==> level >= c.defaultLevel
  {
  }

  /** A name with an override follows it, whatever the default is. */
  lemma OverrideTakesPrecedence(c: Config, name: string, level: int, default: int)
    requires name in c.levelMap
    ensures IsLoggable(c, name, level) <==> level >= c.levelMap[name]
    ensures IsLoggable(c.(defaultLevel := default), name, level) == IsLoggable(c, name, level)
  {
  }

  /** Raising the level of a message never suppresses it. */
  lemma Monotone(c: Config, name: string, level: int, higher: int)
    requires IsLoggable(c, name, level) && level <= higher
    ensures IsLoggable(c, name, higher)
  {
  }

  /** Filtering is a comparison against the effective threshold. */
  lemma LoggableIffAtThreshold(c: Config, name: string, level: int)
    ensures IsLoggable(c, name, level) <==> level >= Threshold(c, name)
  {
  }

  /** No other threshold describes the loggable levels of a name: exactly one
      effective threshold exists per name. */
  lemma ThresholdUnique(c: Config, name: string, t: int)
    requires forall level :: IsLoggable(c, name, level) <==> level >= t
    ensures t == Threshold(c, name)
  {
    assert IsLoggable(c, name, t);
    assert IsLoggable(c, name, Threshold(c, name));
  }

  /** After SetLevel the named logger follows the new threshold and every other
      name keeps its behaviour. */
  lemma SetLevelEffect(c: Config, name: string, lv: int, other: string, level: int)
    ensures IsLoggable(SetLevel(c, name, lv), name, level) <==> level >= lv
    ensures other != name ==> IsLoggable(SetLevel(c, name, lv), other, level) == IsLoggable(c, other, level)
  {
  }

  /** Setting the same override twice is the same as setting it once. */
  lemma SetLevelIdempotent(c: Config, name: string, lv: int)
    ensures SetLevel(SetLevel(c, name, lv), name, lv) == SetLevel(c, name, lv)
  {
  }

  /** The later of two overrides for one name wins. */
  lemma SetLevelLastWins(c: Config, name: string, a: int, b: int)
    ensures SetLevel(SetLevel(c, name, a), name, b) == SetLevel(c, name, b)
  {
  }

  /** Overrides for different names do not interfere. */
  lemma SetLevelCommutes(c: Config, n1: string, a: int, n2: string, b: int)
    requires n1 != n2
    ensures SetLevel(SetLevel(c, n1, a), n2, b) == SetLevel(SetLevel(c, n2, b), n1, a)
  {
  }

  /** Changing the default leaves every overridden name alone and moves every
      other name to the new default. */
  lemma SetDefaultEffect(c: Config, lv: int, name: string, level: int)
    ensures name in c.levelMap ==> IsLoggable(SetDefaulLevel(c, lv), name, level) == IsLoggable(c, name, level)
    ensures name !in c.levelMap ==> (IsLoggable(SetDefaulLevel(c, lv), name, level) <==> level >= lv)
  {
  }

  /** Once a name has an override, later default changes do not reach it. */
  lemma OverrideSurvivesDefault(c: Config, name: string, lv: int, d: int, level: int)
    ensures IsLoggable(SetDefaulLevel(SetLevel(c, name, lv), d), name, level) <==> level >= lv
  {
  }

  /** The flags never influence filtering. */
  lemma SetFlagsKeepsFiltering(c: Config, flags: int, name: string, level: int)
    ensures IsLoggable(SetFlags(c, flags), name, level) == IsLoggable(c, name, level)
  {
  }
}

=== FILE: decimal.dfy ===
/**
  The `%d` verb applied to an int: an optional minus sign followed by the
  decimal digits of the magnitude, most significant first, with no leading
  zeros. It is used for the "unsupported log level" panic message.
 */
module Decimal {
  import opened Wrappers

  predicate IsDigit(c: char) {
    '0' <= c <= '9'
  }

  predicate AllDigits(s: string) {
    forall i :: 0 <= i < |s| ==> IsDigit(s[i])
  }

  function DigitChar(d: nat): (c: char)
    requires d < 10
    ensures IsDigit(c)
  {
    ('0' as int + d) as char
  }

  function DigitValue(c: char): (d: nat)
    requires IsDigit(c)
    ensures d < 10
  {
    c as int - '0' as int
  }

  /** Digits of a natural number, most significant first, without leading zeros. */
  function Digits(n: nat): (s: string)
    ensures 1 <= |s|
    ensures AllDigits(s)
    ensures s[0] == '0' ==> n == 0 && s == "0"
    ensures n == 0 ==> s == "0"
    decreases n
  {
    if n < 10 then [DigitChar(n)] else Digits(n / 10) + [DigitChar(n % 10)]
  }

  /** The number a digit string denotes, read most significant first. */
  function ValueOf(s: string): nat
    requires AllDigits(s)
    decreases |s|
  {
    if s == [] then 0 else ValueOf(s[..|s| - 1]) * 10 + DigitValue(s[|s| - 1])
  }

  /** The digit string denotes the number it was printed from. */
  lemma {:induction false} DigitsValue(n: nat)
    ensures ValueOf(Digits(n)) == n
    decreases n
  {
    if n >= 10 {
      var s := Digits(n);
      assert s[..|s| - 1] == Digits(n / 10);
      DigitsValue(n / 10);
    }
  }

  /** `%d` of an int. */
  function FormatInt(n: int): (s: string)
    ensures 1 <= |s|
    ensures s[0] == '-' <==> n < 0
    ensures n >= 0 ==> AllDigits(s)
    ensures n < 0 ==> AllDigits(s[1..]) && 2 <= |s|
    ensures s[if n < 0 then 1 else 0] == '0' ==> n == 0 && s == "0"
    ensures n == 0 ==> s == "0"
  {
    if n < 0 then "-" + Digits(-n) else Digits(n)
  }

  /** Reads back an optionally signed digit string; None for anything else. */
  function ParseInt(s: string): (r: Option<int>)
    ensures r.Some? ==> 1 <= |s|
  {
    if 1 <= |s| && s[0] == '-' then
      var rest := s[1..];
      if 1 <= |rest| && AllDigits(rest) then Some(-(ValueOf(rest) as int)) else None
    else if 1 <= |s| && AllDigits(s) then Some(ValueOf(s))
    else None
  }

  /** Every printed int is read back as itself. */
  lemma ParseFormatRoundTrip(n: int)
    ensures ParseInt(FormatInt(n)) == Some(n)
  {
    if n < 0 {
      DigitsValue(-n);
      assert FormatInt(n)[1..] == Digits(-n);
    } else {
      DigitsValue(n);
    }
  }

  /** Distinct ints print differently. */
  lemma FormatIntInjective(a: int, b: int)
    requires FormatInt(a) == FormatInt(b)
    ensures a == b
  {
    ParseFormatRoundTrip(a);
    ParseFormatRoundTrip(b);
  }
}

=== FILE: levels.dfy ===
/**
  Severity levels. The logger keeps them as plain integers, so any int can
  reach the emit procedure; only 1..6 have a tag letter.
 */
module Levels {
  import opened Wrappers

  const Verbose: int := 1
  const Debug: int := 2
  const Info: int := 3
  const Warning: int := 4
  const Error: int := 5
  const Fatal: int := 6

  /** The letters of the six tags, indexed by level - 1. */
  const TagLetters: string := "VDIWEF"

  /** True of the levels the emit switch has a case for. */
  predicate Supported(level: int) {
    Verbose <= level <= Fatal
  }

  /** The one-letter tag written before each line, or None for a level that falls
      through to the switch's default branch. */
  function Tag(level: int): (t: Option<char>)
    ensures t.Some? <==> Supported(level)
    ensures t.Some? ==> t.value == TagLetters[level - Verbose]
  {
    if level == Verbose then Some('V')
    else if level == Debug then Some('D')
    else if level == Info then Some('I')
    else if level == Warning then Some('W')
    else if level == Error then Some('E')
    else if level == Fatal then Some('F')
    else None
  }

  /** Reads a tag letter back into its level; None for any other character. */
  function LevelOfTag(c: char): (l: Option<int>)
    ensures l.Some? <==> c in TagLetters
    ensures l.Some? ==> Supported(l.value)
  {
    match c
    case 'V' => Some(Verbose)
    case 'D' => Some(Debug)
    case 'I' => Some(Info)
    case 'W' => Some(Warning)
    case 'E' => Some(Error)
    case 'F' => Some(Fatal)
    case _ => None
  }

  /** Every supported level is recovered from its tag. */
  lemma TagRoundTrip(level: int)
    requires Supported(level)
    ensures LevelOfTag(Tag(level).value) == Some(level)
  {
  }

  /** Every tag letter is the tag of the level it reads back as. */
  lemma TagLetterRoundTrip(c: char)
    requires c in TagLetters
    ensures Tag(LevelOfTag(c).value) == Some(c)
  {
  }

  /** Distinct supported levels get distinct tags. */
  lemma TagInjective(a: int, b: int)
    requires Supported(a) && Tag(a) == Tag(b)
    ensures a == b
  {
    TagRoundTrip(a);
    TagRoundTrip(b);
  }
}

=== FILE: logger.dfy ===
/**
  Named loggers and the shared emit procedure. A call to the emit procedure is
  a pure function of the live policy, the logger, the level and the already
  rendered message; its effect is an Outcome: nothing, one written line, one
  written line followed by a panic, or a panic alone.
 */
module LevelLogger {
  import opened Wrappers
  import opened Levels
  import opened Decimal
  import opened LogConfig

  /** Output streams a logger may be handed. */
  datatype File = Stderr | OpenFile(fd: nat)

  /** A logger handle: its name, the stream it writes to and the flags it
      captured when it was made. */
  datatype Logger = Logger(name: string, out: File, flags: int)

  /** What one emit call does. */
  datatype Outcome =
    | Silent
    | Wrote(line: string)
    | WroteThenPanic(line: string, payload: string)
    | PanicOnly(payload: string)
  {
    /** The lines written to the stream, in order. */
    function Written(): seq<string> {
      match this
      case Silent => []
      case Wrote(line) => [line]
      case WroteThenPanic(line, _) => [line]
      case PanicOnly(_) => []
    }

    /** True when the call does not return normally. */
    predicate Panics() {
      WroteThenPanic? || PanicOnly?
    }
  }

  /** Makes a logger. The `file` argument (None standing for nil) is defaulted
      to standard error and then never used: every logger writes to standard
      error, with the flags the policy holds at this moment. */
  function NewLogger(c: Config, name: string, file: Option<File>): (l: Logger)
    ensures l.name == name
    ensures l.out == Stderr
    ensures l.flags == c.flags
  {
    Logger(name, Stderr, c.flags)
  }

  /** The message with the logger's name in brackets in front of it, or the
      bare message for an unnamed logger. */
  function Prefixed(name: string, message: string): (m: string)
    ensures |m| == |message| + (if name == "" then 0 else |name| + 3)
    ensures m[|m| - |message|..] == message
    ensures name != "" ==> m[..|name| + 3] == "[" + name + "] "
  {
    if name != "" then "[" + name + "] " + message else message
  }

  /** Removes the prefix Prefixed adds for `name`; None when it is not there. */
  function StripPrefix(name: string, m: string): (r: Option<string>)
    ensures r.Some? ==> |r.value| <= |m|
  {
    if name == "" then Some(m)
    else
      var p := "[" + name + "] ";
      if |p| <= |m| && m[..|p|] == p then Some(m[|p|..]) else None
  }

  /** The message is recovered from its prefixed form, given the name. */
  lemma StripPrefixRoundTrip(name: string, message: string)
    ensures StripPrefix(name, Prefixed(name, message)) == Some(message)
  {
    if name != "" {
      var p := "[" + name + "] ";
      assert Prefixed(name, message) == p + message;
      assert (p + message)[..|p|] == p;
      assert (p + message)[|p|..] == message;
    }
  }

  /** A written line: tag, space, message, newline. */
  function Line(tag: char, message: string): (line: string)
    ensures |line| == |message| + 3
    ensures line[0] == tag && line[1] == ' ' && line[|line| - 1] == '\n'
    ensures line[2..|line| - 1] == message
  {
    [tag] + " " + message + "\n"
  }

  /** Splits a line back into tag and message; None when it is not shaped
      like one. */
  function ParseLine(line: string): (r: Option<(char, string)>)
    ensures r.Some? ==> |line| >= 3
  {
    if |line| >= 3 && line[1] == ' ' && line[|line| - 1] == '\n' then
      Some((line[0], line[2..|line| - 1]))
    else None
  }

  /** A line is recovered into the tag and the message it was built from. */
  lemma LineRoundTrip(tag: char, message: string)
    ensures ParseLine(Line(tag, message)) == Some((tag, message))
  {
  }

  /** The panic payload for a level the switch has no case for. */
  function UnsupportedMessage(level: int): (s: string)
    ensures |s| > |UnsupportedPrefix|
    ensures s[..|UnsupportedPrefix|] == UnsupportedPrefix
    ensures s[|UnsupportedPrefix|..] == FormatInt(level)
  {
    UnsupportedPrefix + FormatInt(level)
  }

  const UnsupportedPrefix: string := "unsupported log level "

  /** The level is read back from the payload's text after the fixed prefix. */
  lemma UnsupportedMessageNamesLevel(level: int)
    ensures ParseInt(UnsupportedMessage(level)[|UnsupportedPrefix|..]) == Some(level)
  {
    assert UnsupportedMessage(level)[|UnsupportedPrefix|..] == FormatInt(level);
    ParseFormatRoundTrip(level);
  }

  /** Different unsupported levels give different panic payloads. */
  lemma UnsupportedMessageInjective(a: int, b: int)
    requires UnsupportedMessage(a) == UnsupportedMessage(b)
    ensures a == b
  {
    UnsupportedMessageNamesLevel(a);
    UnsupportedMessageNamesLevel(b);
  }

  /** The shared emit procedure of every named logger: consult the live policy,
      then write the tagged line, and panic at FATAL or at an unknown level. */
  function Emit(c: Config, l: Logger, level: int, message: string): (o: Outcome)
    ensures o.Silent? <==> !IsLoggable(c, l.name, level)
    ensures o.Wrote? <==> IsLoggable(c, l.name, level) && Verbose <= level < Fatal
    ensures o.WroteThenPanic? <==> IsLoggable(c, l.name, level) && level == Fatal
    ensures o.PanicOnly? <==> IsLoggable(c, l.name, level) && !Supported(level)
    ensures (o.Wrote? || o.WroteThenPanic?) ==>
              o.line == Line(TagLetters[level - Verbose], Prefixed(l.name, message))
    ensures o.WroteThenPanic? ==> o.payload == Prefixed(l.name, message)
    ensures o.PanicOnly? ==> o.payload == UnsupportedMessage(level)
  {
    if !IsLoggable(c, l.name, level) then Silent
    else
      var m := Prefixed(l.name, message);
      match Tag(level)
      case None => PanicOnly(UnsupportedMessage(level))
      case Some(t) =>
        if level == Fatal then WroteThenPanic(Line(t, m), m) else Wrote(Line(t, m))
  }

  /** The exact text of a written line, spelled out as concatenation. */
  lemma EmitLineText(c: Config, l: Logger, level: int, message: string)
    requires IsLoggable(c, l.name, level) && Supported(level)
    ensures Emit(c, l, level, message).Written() ==
              [[TagLetters[level - Verbose]] + " "
               + (if l.name != "" then "[" + l.name + "] " else "")
               + message + "\n"]
  {
    var t := TagLetters[level - Verbose];
    var m := Prefixed(l.name, message);
    assert Emit(c, l, level, message).Written() == [Line(t, m)];
    if l.name != "" {
      var p := "[" + l.name + "] ";
      assert m == p + message;
      assert [t] + " " + (p + message) + "\n" == [t] + " " + p + message + "\n";
    } else {
      assert [t] + " " + "" + message + "\n" == [t] + " " + message + "\n";
    }
  }

  /** A written line reads back as the level's tag and the prefixed message,
      the tag reads back as the level, and the message as the caller's. */
  lemma EmitLineRoundTrip(c: Config, l: Logger, level: int, message: string)
    requires IsLoggable(c, l.name, level) && Supported(level)
    ensures var o := Emit(c, l, level, message);
            && ParseLine(o.line) == Some((Tag(level).value, Prefixed(l.name, message)))
            && LevelOfTag(Tag(level).value) == Some(level)
            && StripPrefix(l.name, ParseLine(o.line).value.1) == Some(message)
  {
  }

  /** A loggable supported level writes exactly one line; anything else writes
      nothing. */
  lemma EmitWritesAtMostOne(c: Config, l: Logger, level: int, message: string)
    ensures |Emit(c, l, level, message).Written()| == (if IsLoggable(c, l.name, level) && Supported(level) then 1 else 0)
  {
  }

  /** A suppressed call has no effect at all, whatever the level, even one the
      switch has no case for. */
  lemma SuppressedIsSilent(c: Config, l: Logger, level: int, message: string)
    requires !IsLoggable(c, l.name, level)
    ensures Emit(c, l, level, message).Written() == []
    ensures !Emit(c, l, level, message).Panics()
  {
  }

  /** At FATAL the line is written before the call panics, and the payload is the
      line without its tag and newline. */
  lemma FatalWritesThenPanics(c: Config, l: Logger, message: string)
    requires IsLoggable(c, l.name, Fatal)
    ensures Emit(c, l, Fatal, message).Panics()
    ensures Emit(c, l, Fatal, message).Written() == [Line('F', Emit(c, l, Fatal, message).payload)]
  {
  }

  /** Neither the logger's captured flags, its stream nor the policy's flags
      change what a call does. */
  lemma EmitIgnoresFlags(c: Config, l: Logger, flags: int, out: File, f2: int, level: int, message: string)
    ensures Emit(SetFlags(c, f2), l.(flags := flags, out := out), level, message) == Emit(c, l, level, message)
  {
  }

  /** An existing logger sees policy changes made after it was created: filtering
      reads the live policy at every call. */
  lemma EmitSeesLaterSetLevel(c: Config, name: string, file: Option<File>, lv: int, level: int, message: string)
    ensures Emit(SetLevel(c, name, lv), NewLogger(c, name, file), level, message).Silent? <==> level < lv
  {
  }

  /** The `file` argument makes no difference to the logger made. */
  lemma NewLoggerIgnoresFile(c: Config, name: string, f1: Option<File>, f2: Option<File>)
    ensures NewLogger(c, name, f1) == NewLogger(c, name, f2)
  {
  }

  /** A logger keeps the flags it captured: changing the policy's flags later
      does not reach it, while a logger made afterwards captures the new ones. */
  lemma FlagsSnapshot(c: Config, name: string, file: Option<File>, flags: int)
    ensures NewLogger(c, name, file).flags == c.flags
    ensures NewLogger(SetFlags(c, flags), name, file).flags == flags
  {
  }

  // The six public entry points. Each renders the template with `render`, the
  // printf-style formatter, and delegates to Emit at its own level.

  function LogV<V>(c: Config, l: Logger, format: string, values: seq<V>, render: (string, seq<V>) -> string): (o: Outcome)
    ensures o.Silent? || o.Wrote?
    ensures o.Wrote? <==> IsLoggable(c, l.name, Verbose)
    ensures o.Wrote? ==> o.line == Line('V', Prefixed(l.name, render(format, values)))
  {
    Emit(c, l, Verbose, render(format, values))
  }

  function LogD<V>(c: Config, l: Logger, format: string, values: seq<V>, render: (string, seq<V>) -> string): (o: Outcome)
    ensures o.Silent? || o.Wrote?
    ensures o.Wrote? <==> IsLoggable(c, l.name, Debug)
    ensures o.Wrote? ==> o.line == Line('D', Prefixed(l.name, render(format, values)))
  {
    Emit(c, l, Debug, render(format, values))
  }

  function LogI<V>(c: Config, l: Logger, format: string, values: seq<V>, render: (string, seq<V>) -> string): (o: Outcome)
    ensures o.Silent? || o.Wrote?
    ensures o.Wrote? <==> IsLoggable(c, l.name, Info)
    ensures o.Wrote? ==> o.line == Line('I', Prefixed(l.name, render(format, values)))
  {
    Emit(c, l, Info, render(format, values))
  }

  function LogW<V>(c: Config, l: Logger, format: string, values: seq<V>, render: (string, seq<V>) -> string): (o: Outcome)
    ensures o.Silent? || o.Wrote?
    ensures o.Wrote? <==> IsLoggable(c, l.name, Warning)
    ensures o.Wrote? ==> o.line == Line('W', Prefixed(l.name, render(format, values)))
  {
    Emit(c, l, Warning, render(format, values))
  }

  function LogE<V>(c: Config, l: Logger, format: string, values: seq<V>, render: (string, seq<V>) -> string): (o: Outcome)
    ensures o.Silent? || o.Wrote?
    ensures o.Wrote? <==> IsLoggable(c, l.name, Error)
    ensures o.Wrote? ==> o.line == Line('E', Prefixed(l.name, render(format, values)))
  {
    Emit(c, l, Error, render(format, values))
  }

  /** The only entry point that does not return normally once its level passes
      the filter. */
  function LogF<V>(c: Config, l: Logger, format: string, values: seq<V>, render: (string, seq<V>) -> string): (o: Outcome)
    ensures o.Silent? || o.WroteThenPanic?
    ensures o.WroteThenPanic? <==> IsLoggable(c, l.name, Fatal)
    ensures o.WroteThenPanic? ==>
              var m := Prefixed(l.name, render(format, values));
              o.line == Line('F', m) && o.payload == m
  {
    Emit(c, l, Fatal, render(format, values))
  }
}

=== FILE: scenarios.dfy ===
/**
  Concrete instances of the model: the start-up policy, a per-name override, the
  fatal path, levels outside 1..6, and the VERBOSE and DEBUG calls of log_test.go.
 */
module Scenarios {
  import opened Wrappers
  import opened Levels
  import opened LogConfig
  import opened LevelLogger
  import opened Session
  import Decimal

  /** An unnamed logger at start-up drops VERBOSE and writes DEBUG bare. */
  lemma UnnamedAtStartup()
    ensures var l := NewLogger(Initial, "", None);
            && Emit(Initial, l, Verbose, "x=5") == Silent
            && Emit(Initial, l, Debug, "x=5") == Wrote("D x=5\n")
  {
  }

  /** A WARNING override on "net" drops INFO, whatever the message. */
  lemma NetOverrideDropsInfo(message: string)
    ensures var c := SetLevel(Initial, "net", Warning);
            Emit(c, NewLogger(c, "net", Some(OpenFile(3))), Info, message) == Silent
  {
  }

  /** The same override lets ERROR through, with the name in brackets, and the
      logger writes to standard error although it was handed another file. */
  lemma NetOverrideWritesError()
    ensures var c := SetLevel(Initial, "net", Warning);
            var l := NewLogger(c, "net", Some(OpenFile(3)));
            && Emit(c, l, Error, "down") == Wrote("E [net] down\n")
            && l.out == Stderr
  {
    assert Prefixed("net", "down") == "[net] down";
    assert Line('E', "[net] down") == "E [net] down\n";
  }

  /** FATAL on an unnamed logger writes its line and then panics with the
      message. */
  lemma FatalBoom()
    ensures Emit(Initial, NewLogger(Initial, "", None), Fatal, "boom") == WroteThenPanic("F boom\n", "boom")
  {
    var l := NewLogger(Initial, "", None);
    assert Prefixed(l.name, "boom") == "boom";
    assert Emit(Initial, l, Fatal, "boom") == WroteThenPanic(Line('F', "boom"), "boom");
    assert Line('F', "boom") == "F boom\n";
  }

  /** On a named logger the panic payload carries the name prefix too. */
  lemma FatalNamed(message: string)
    ensures Emit(Initial, NewLogger(Initial, "db", None), Fatal, message)
            == WroteThenPanic(Line('F', "[db] " + message), "[db] " + message)
  {
    assert "[" + "db" + "] " == "[db] ";
    assert Prefixed("db", message) == "[db] " + message;
  }

  /** A level past FATAL that passes the filter panics without writing. */
  lemma UnsupportedAboveFatal(message: string)
    ensures Emit(Initial, NewLogger(Initial, "", None), 7, message) == PanicOnly("unsupported log level 7")
  {
  }

  /** A level below the threshold is dropped before the switch is reached, even
      though it has no tag. */
  lemma UnsupportedButSuppressed(message: string)
    ensures Emit(Initial, NewLogger(Initial, "", None), 0, message) == Silent
  {
  }

  /** A negative level that the lowered default lets through is printed with its sign. */
  lemma UnsupportedNegative(message: string)
    ensures Emit(SetDefaulLevel(Initial, -20), NewLogger(Initial, "", None), -13, message)
              == PanicOnly("unsupported log level -13")
  {
    assert Decimal.FormatInt(-13) == "-13" by {
      assert Decimal.Digits(13) == Decimal.Digits(1) + ['3'];
    }
  }

  /** The second half of log_test.go: once the default is VERBOSE, both levels
      are written, whatever the messages are. */
  lemma TestLogAfterLowering(l: Logger, m3: string, m4: string)
    requires l.name == ""
    ensures Run(SetDefaulLevel(Initial, Verbose), [LogCall(l, Verbose, m3), LogCall(l, Debug, m4)])
            == Trace(SetDefaulLevel(Initial, Verbose), [Line('V', m3), Line('D', m4)], None)
  {
    var c := SetDefaulLevel(Initial, Verbose);
    var last := [LogCall(l, Debug, m4)];
    RunLogCall(c, l, Debug, m4, []);
    assert last + [] == last;
    RunLogCall(c, l, Verbose, m3, last);
    assert [LogCall(l, Verbose, m3)] + last == [LogCall(l, Verbose, m3), LogCall(l, Debug, m4)];
    assert [Line('V', m3)] + ([Line('D', m4)] + []) == [Line('V', m3), Line('D', m4)];
  }

  /** The calls of log_test.go on an unnamed logger: at start-up VERBOSE is
      dropped, and after the default is lowered to VERBOSE every level is
      written. */
  lemma TestLogRun(l: Logger, m1: string, m2: string, m3: string, m4: string)
    requires l.name == ""
    ensures Run(Initial, [LogCall(l, Verbose, m1), LogCall(l, Debug, m2),
                          SetDefaulLevelCall(Verbose),
                          LogCall(l, Verbose, m3), LogCall(l, Debug, m4)])
            == Trace(SetDefaulLevel(Initial, Verbose), [Line('D', m2), Line('V', m3), Line('D', m4)], None)
  {
    var c := SetDefaulLevel(Initial, Verbose);
    var tail := [LogCall(l, Verbose, m3), LogCall(l, Debug, m4)];
    var out := [Line('V', m3), Line('D', m4)];
    var mid := [SetDefaulLevelCall(Verbose)] + tail;
    var second := [LogCall(l, Debug, m2)] + mid;
    var calls := [LogCall(l, Verbose, m1)] + second;
    assert Run(Initial, mid) == Trace(c, out, None) by {
      TestLogAfterLowering(l, m3, m4);
      RunConfigCall(Initial, SetDefaulLevelCall(Verbose), tail);
    }
    assert Run(Initial, second) == Trace(c, [Line('D', m2)] + out, None) by {
      RunLogCall(Initial, l, Debug, m2, mid);
    }
    assert Run(Initial, calls) == Run(Initial, second) by {
      RunLogCall(Initial, l, Verbose, m1, second);
    }
    assert calls == [LogCall(l, Verbose, m1), LogCall(l, Debug, m2),
                     SetDefaulLevelCall(Verbose), LogCall(l, Verbose, m3), LogCall(l, Debug, m4)];
    assert [Line('D', m2)] + out == [Line('D', m2), Line('V', m3), Line('D', m4)];
  }
}

=== FILE: session.dfy ===
/**
  A sequence of calls into the library made by one caller, run in order
  against the process-wide policy. A panic unwinds the caller, so no call after
  it takes effect; everything written before it stays written.
 */
module Session {
  import opened Wrappers
  import opened Levels
  import opened LogConfig
  import opened LevelLogger

  /** One call into the library; a LogCall carries the already rendered message. */
  datatype Call =
    | SetLevelCall(name: string, level: int)
    | SetDefaulLevelCall(level: int)
    | SetFlagsCall(flags: int)
    | LogCall(logger: Logger, level: int, message: string)

  /** The policy after a run, the lines written to standard error, and the
      payload of the panic that ended the run early, if one did. */
  datatype Trace = Trace(config: Config, output: seq<string>, panic: Option<string>)

  /** True of a string Emit can write: tag, space, message, newline. */
  predicate IsLine(s: string) {
    ParseLine(s).Some? && LevelOfTag(ParseLine(s).value.0).Some?
  }

  /** The policy after a configuration call; log calls leave it alone. */
  function Apply(c: Config, call: Call): Config {
    match call
    case SetLevelCall(name, level) => SetLevel(c, name, level)
    case SetDefaulLevelCall(level) => SetDefaulLevel(c, level)
    case SetFlagsCall(flags) => SetFlags(c, flags)
    case LogCall(_, _, _) => c
  }

  /** What one call does to the output: log calls emit, configuration calls
      write nothing. */
  function Step(c: Config, call: Call): Outcome {
    if call.LogCall? then Emit(c, call.logger, call.level, call.message) else Silent
  }

  /** Runs the calls in order, stopping at the first panic. */
  function Run(c: Config, calls: seq<Call>): (t: Trace)
    ensures |t.output| <= |calls|
    decreases |calls|
  {
    if calls == [] then Trace(c, [], None)
    else
      var o := Step(c, calls[0]);
      if o.Panics() then Trace(c, o.Written(), Some(o.payload))
      else
        var rest := Run(Apply(c, calls[0]), calls[1..]);
        Trace(rest.config, o.Written() + rest.output, rest.panic)
  }

  /** Everything a run writes is a well-formed line with a known tag. */
  lemma {:induction false} RunWritesLines(c: Config, calls: seq<Call>)
    ensures forall i :: 0 <= i < |Run(c, calls).output| ==> IsLine(Run(c, calls).output[i])
    decreases |calls|
  {
    if calls != [] {
      var o := Step(c, calls[0]);
      if o.Wrote? || o.WroteThenPanic? {
        assert LevelOfTag(ParseLine(o.line).value.0).Some?;
      }
      if !o.Panics() {
        RunWritesLines(Apply(c, calls[0]), calls[1..]);
      }
    }
  }

  /** One log call that returns normally, then the rest of the run. */
  lemma RunLogCall(c: Config, l: Logger, level: int, message: string, rest: seq<Call>)
    requires !Emit(c, l, level, message).Panics()
    ensures Run(c, [LogCall(l, level, message)] + rest) ==
              Trace(Run(c, rest).config, Emit(c, l, level, message).Written() + Run(c, rest).output, Run(c, rest).panic)
  {
    assert ([LogCall(l, level, message)] + rest)[1..] == rest;
  }

  /** One configuration call, then the rest of the run from the changed policy. */
  lemma RunConfigCall(c: Config, call: Call, rest: seq<Call>)
    requires !call.LogCall?
    ensures Run(c, [call] + rest) == Run(Apply(c, call), rest)
  {
    assert ([call] + rest)[1..] == rest;
  }

  /** Regrouping concatenated output; stated on its own to keep the proofs
      that use it small. */
  lemma ConcatAssoc(x: seq<string>, y: seq<string>, z: seq<string>)
    ensures x + (y + z) == (x + y) + z
  {
  }

  /** Running two call sequences back to back: when the first one ends normally
      the second starts from the policy it left and its lines follow. */
  lemma {:induction false} RunConcat(c: Config, a: seq<Call>, b: seq<Call>)
    requires Run(c, a).panic.None?
    ensures var ta := Run(c, a);
            var tb := Run(ta.config, b);
            Run(c, a + b) == Trace(tb.config, ta.output + tb.output, tb.panic)
    decreases |a|
  {
    if a == [] {
      assert a + b == b;
    } else {
      var ab := a + b;
      assert ab[0] == a[0];
      assert ab[1..] == a[1..] + b;
      var o := Step(c, a[0]);
      var c' := Apply(c, a[0]);
      RunConcat(c', a[1..], b);
      var ta := Run(c', a[1..]);
      var tb := Run(ta.config, b);
      ConcatAssoc(o.Written(), ta.output, tb.output);
    }
  }

  /** Once a run panics, the calls after it never happen. */
  lemma {:induction false} RunStopsAtPanic(c: Config, a: seq<Call>, b: seq<Call>)
    requires Run(c, a).panic.Some?
    ensures Run(c, a + b) == Run(c, a)
    decreases |a|
  {
    assert a != [];
    var ab := a + b;
    assert ab[0] == a[0];
    assert ab[1..] == a[1..] + b;
    if !Step(c, a[0]).Panics() {
      RunStopsAtPanic(Apply(c, a[0]), a[1..], b);
    }
  }

  /** A FATAL call that passes the filter writes its line as the last line of the
      run and ends it with the prefixed message as payload, whatever follows. */
  lemma FatalEndsRun(c: Config, a: seq<Call>, l: Logger, message: string, b: seq<Call>)
    requires Run(c, a).panic.None?
    requires IsLoggable(Run(c, a).config, l.name, Fatal)
    ensures Run(c, a + [LogCall(l, Fatal, message)] + b) ==
              Trace(Run(c, a).config,
                    Run(c, a).output + [Line('F', Prefixed(l.name, message))],
                    Some(Prefixed(l.name, message)))
  {
    var f := [LogCall(l, Fatal, message)];
    RunConcat(c, a, f);
    RunStopsAtPanic(c, a + f, b);
  }

  /** An override set after a logger was made governs that logger's very next
      call: nothing is written and nothing panics exactly when the level is
      below the new threshold. */
  lemma SetLevelReachesExistingLogger(c: Config, l: Logger, lv: int, level: int, message: string)
    ensures var t := Run(c, [SetLevelCall(l.name, lv), LogCall(l, level, message)]);
            t.output == [] && t.panic.None? <==> level < lv
  {
    var calls := [SetLevelCall(l.name, lv), LogCall(l, level, message)];
    var c' := SetLevel(c, l.name, lv);
    var o := Emit(c', l, level, message);
    assert calls[1..] == [LogCall(l, level, message)];
    assert calls[1..][1..] == [];
    assert Run(c, calls) == Run(c', calls[1..]);
    if !o.Panics() {
      assert Run(c', calls[1..]) == Trace(c', o.Written() + [], None);
    }
    assert o.Silent? <==> level < lv;
  }
}

=== FILE: wrappers.dfy ===
/** The optional-value datatype the rest of the model uses for "absent" values. */
module Wrappers {

  /** Some(v) or None; None plays the role of Go's nil / missing map entry. */
  datatype Option<+T> = None | Some(value: T)
}
